=== FILE: README.md ===
# video2calibration: frame selection, correspondence accumulation and `crop_square`

This project models, in Dafny, the two pieces of pure logic in the camera
calibration scripts of video2calibration:

* the **collection phase of `calibrate.py`**. It opens the input, which is a
  folder of `*.jpg`/`*.png` images or a video file. It builds the canonical
  chessboard object-point grid. It then runs the `while True` loop: frames
  are read and offered to the chessboard detector, and each detection is
  accumulated into `img_points`/`obj_points` together with `used_frames`.
  The loop obeys `--framestep` and `--max-frames` and records the frame
  size `(h, w)`. Finally, the corners cache is written as the triple
  `img_points`, `obj_points`, `(w, h)`;
* **`crop_square` of `generator.py`**. This is the row and column slice
  arithmetic that cuts a frame down before it is resized.

The chessboard search with its sub-pixel refinement is an oracle
`Image -> Option<Corners>`, and image decoding is an oracle `Path -> Image`.
Corners are opaque pairs of reals.

Modules, one per file:

| file | module | what it holds |
|---|---|---|
| outcomes.dfy | `Outcomes` | `Option`, `Result` and the Python exceptions raised (`IndexError`, `ValueError`, `ZeroDivisionError`, `EOFError`) |
| py_semantics.dfy | `PySemantics` | Python list indexing with negative indices, floor `%`, `int(x / 2)`, slice-bound normalisation, division facts |
| pattern.dfy | `Pattern` | the object-point grid built with `np.indices(...).T.reshape(-1, 2)` |
| frame_source.dfy | `FrameSource` | input dispatch, Python string order and `sorted`, the image-list visit order, the video frame-step schedule |
| accumulator.dfy | `Accumulator` | the effect of one offered frame (`Offer`), the loop stated over the offered frames (`Collect`), and the corners cache |
| calibration_loop.dfy | `CalibrationLoop` | the literal loop as a state machine (`Step`/`Run`), its equivalence with `Collect` for both source kinds, an imperative mirror, and the collection phase end to end |
| crop_square.dfy | `Generator` | `crop_square` as written and the centred crop it was meant to be |

The loop is modelled twice, and the two are proved equal. `Run` follows the
source line by line. `Collect` states the loop's meaning over the sequence of
frames actually offered to the detector. For an image list that sequence is
`source[-1], source[0], …, source[len-1]`, because `frame` starts at -1 and
is advanced only after the read. The last image is therefore examined twice,
and an empty folder fails with `IndexError` on the first read. For a video
the sequence is the frames whose 0-based read index is divisible by the
step.

## Model

| member | source | states |
|---|---|---|
| `PySemantics.PyIndex` | calibrate.py:50 | `source[frame]` succeeds iff `-len <= frame < len`, yields element `frame mod len` (so index -1 is the last element), and otherwise raises IndexError |
| `PySemantics.FloorMod` | calibrate.py:58 | Python `%` has the divisor's sign, is congruent to the dividend, and is zero exactly when the divisor divides the dividend |
| `PySemantics.TruncHalf` | generator.py:11-13 | `int(x / 2)` truncates toward zero: for `x >= 0` it is `x div 2`, and `abs(x) - 2*abs(r)` is 0 or 1 |
| `PySemantics.AdjustBound` | generator.py:11-13 | a slice end lands in `[0, n]`: it is unchanged in `[0, n]`, counts from the end in `[-n, 0)`, is clamped to `n` above `n` and to 0 below `-n` |
| `PySemantics.PySlice` | generator.py:11-13 | a step-1 slice selects a region inside `[0, n]`; in-range bounds `start <= stop` are kept as given; bounds in `[-n, 0)` select the same region counted from the end; a stop past `n` is cut to `n`; a start below `-n` starts at 0; a stop not after the start, both counted from the same end, selects nothing; a front-counted start with an end-counted stop, as in `a[0:-1]`, runs to `stop + n`, or is empty when that lies before the start |
| `PySemantics.NegativeSliceMirror` | generator.py:11-13 | for bounds that name elements, `a[start - n : stop - n]` is the same region as `a[start:stop]` |
| `PySemantics.FullSlice` | generator.py:11-13 | the bare slice `:` is the slice `0:n` |
| `Pattern.RowsFromShape` | calibrate.py:37 | the transposed `np.indices` layout has `pw*(ph-y)` points, and flat index `k` is corner `(k mod pw, y + k div pw, 0)` |
| `Pattern.PatternPoints` | calibrate.py:35-37 | the grid has `pw*ph` points and point `k` is `(k mod pw, k div pw, 0)`, so x varies fastest, x lies in `[0, pw)`, y in `[0, ph)` and z is 0; a negative dimension raises ValueError |
| `Pattern.CornerIndex` | calibrate.py:35-37 | board corner `(x, y)` sits at flat index `y*pw + x` |
| `Pattern.GridMembership` | calibrate.py:35-37 | a point is in the grid iff it lies on z = 0 with `0 <= x < pw` and `0 <= y < ph` |
| `Pattern.GridDistinct` | calibrate.py:35-37 | no corner appears twice in the grid |
| `Pattern.DefaultBoard` | calibrate.py:35-37 | the default 6 x 9 board gives 54 points with x in [0, 5] and y in [0, 8] |
| `FrameSource.SortPaths` | calibrate.py:27 | `sorted` returns the paths in non-decreasing Python string order, as a permutation of its input |
| `FrameSource.SortedUnique` | calibrate.py:27 | two sorted permutations of the same paths are identical, so the sorted image list is fully determined |
| `FrameSource.OpenSource` | calibrate.py:25-32 | a folder becomes the sorted list of all its `.jpg` and `.png` paths, a file becomes a video capture, and anything else raises ValueError |
| `FrameSource.ListVisits` | calibrate.py:43-51 | a non-empty image list is read `len + 1` times, first its last image and then the whole list in order |
| `FrameSource.ReadAll` | calibrate.py:50 | reading a list of paths yields one image per path, in the same order |
| `FrameSource.PicksMembership` | calibrate.py:57-59 | a read index is offered to the detector iff it is in range and `index % framestep == 0` |
| `FrameSource.PicksFromMultiple` | calibrate.py:57-59 | from a multiple `j*step` onward, the offered indices are the successive multiples of the step below `n`, and there are `ceil(n/step) - j` of them |
| `FrameSource.FramestepSchedule` | calibrate.py:54-59 | with `n` frames and a step of at least 1, the offered indices are `0, step, 2*step, …`, and there are exactly `ceil(n/step)` of them |
| `FrameSource.DefaultFramestep` | calibrate.py:57-59 | a 100-frame video with step 20 offers exactly indices 0, 20, 40, 60 and 80 |
| `Accumulator.Offer` | calibrate.py:63-76 | an offered frame always sets `(h, w)` to its own size; a hit appends the corners and a copy of the grid in lock-step and increments the count; a miss leaves both lists and the count unchanged; the accumulator invariant is preserved |
| `Accumulator.CollectUncapped` | calibrate.py:45-76 | without a cap, the image points are the detections in offer order, each paired with one grid copy; the count is the number of detections; `(h, w)` is the size of the last offered frame and stays at its start value if no frame was offered |
| `Accumulator.CollectCapped` | calibrate.py:68-74 | with cap `m`, the final count is `min(count + detections, max(m, count + 1))`, and the image points are exactly that many first detections, in order |
| `Accumulator.CapBound` | calibrate.py:68-74 | from an empty start, at most `max(m, 1)` frames are accepted, so a cap of 0 or less still admits one frame, and at least one is accepted if any detection exists |
| `Accumulator.CapTruncates` | calibrate.py:72-74 | the capped loop ends in exactly the state of an uncapped loop over the frames it processed, so the cap only cuts the source short |
| `Accumulator.CollectConsistent` | calibrate.py:68-70 | `len(img_points) == len(obj_points) == used_frames` and every `obj_points` entry is the grid, after any run of the loop |
| `Accumulator.CollectWellSized` | calibrate.py:64-70 | with a detector that returns one corner per grid point, every accepted entry pairs equally many image and object points |
| `Accumulator.Load` | calibrate.py:89-93 | reading a cache that holds fewer than three values raises EOFError; reading succeeds exactly when the first three values are image points, object points and a pair, in that order, and then writing the result back gives those three values |
| `Accumulator.Persist` | calibrate.py:83-87 | the cache holds exactly three values, `img_points`, `obj_points`, `(w, h)`, in that order with width first, and reading it back restores all of them |
| `Accumulator.CacheRoundTrip` | calibrate.py:84-93 | writing any cache and reading it back gives the same points in the same order and the same size |
| `CalibrationLoop.Step` | calibrate.py:45-76 | an iteration that goes round again advances the read counter by exactly one and keeps it within the source |
| `CalibrationLoop.RunImageListFrom` | calibrate.py:48-76 | from read index `f >= 0`, the image-list loop processes `source[f:]` in order and stops once `frame >= len(source)` or the cap is reached |
| `CalibrationLoop.RunImageList` | calibrate.py:43-76 | from the start, the image-list loop processes the last image and then every image in order; an empty list raises IndexError |
| `CalibrationLoop.RunVideo` | calibrate.py:54-76 | the video loop processes exactly the frames its step selects; a zero step raises ZeroDivisionError at the first frame read and never when the video is empty |
| `CalibrationLoop.RunVideoSchedule` | calibrate.py:54-76 | from the start, a video with step >= 1 offers frames `0, step, 2*step, …`, which is `ceil(n/step)` frames |
| `CalibrationLoop.UncappedImageList` | calibrate.py:42-76 | without a cap, the image-list loop accepts every detection in visit order and records the size of the last image |
| `CalibrationLoop.UncappedVideo` | calibrate.py:42-76 | without a cap, the video loop accepts every detection among the offered frames and records the size of the last offered frame; `(h, w)` stays `(0, 0)` for an empty video |
| `CalibrationLoop.RunInvariant` | calibrate.py:65-74 | every completed loop leaves the accumulator consistent with the grid; a cap `m` bounds the count by `max(m, 1)`; a conforming detector gives equally sized pairs |
| `CalibrationLoop.CollectCorrespondences` | calibrate.py:25-76 | a missing input is a ValueError before anything else; a negative pattern size is a ValueError; an image-less folder is an IndexError; a non-empty video with step 0 is a ZeroDivisionError; the phase fails exactly in these cases; a successful run is consistent with the grid and respects the cap |
| `CalibrationLoop.GatherCorrespondences` | calibrate.py:40-76 | the loop with in-place appends ends in the same result as `Run` and keeps the accumulator invariant |
| `Generator.CropSquare` | generator.py:7-14 | both slices lie inside the frame, so the crop never enlarges it and no clamping occurs. Landscape keeps all rows and columns `[w//2 - h//2, w//2 + h//2)`. Portrait/square keeps all columns and rows `[h//2 - w//2, 2*(h//2))` |
| `Generator.LandscapeSize` | generator.py:10-11 | a landscape crop has `h` rows, and `h` columns if `h` is even or `h - 1` if it is odd |
| `Generator.PortraitSize` | generator.py:12-13 | a portrait or square crop has `w` columns and `h//2 + w//2` rows |
| `Generator.SquareEvenUnchanged` | generator.py:12-13 | a square frame of even side is returned whole |
| `Generator.SquareOddDropsLastRow` | generator.py:12-13 | a square frame of odd side loses exactly its last row |
| `Generator.PortraitSquareOnlyNearDiagonal` | generator.py:12-13 | as written, a portrait crop is square iff `h//2 == ceil(w/2)` |
| `Generator.PortraitCounterexample` | generator.py:10-13 | a 10 x 4 frame is cut to rows 3..9 (7 x 4), while its 4 x 10 transpose is cut to the centred 4 x 4 |
| `Generator.CropSquareCentred` | generator.py:10-13 | the corrected crop lies inside the frame, and each axis is either kept whole or cut symmetrically about its middle |
| `Generator.CentredTransposeSymmetric` | generator.py:10-13 | the corrected crop of a non-square frame is the transpose of the crop of the transposed frame |
| `Generator.CentredIsSquare` | generator.py:10-13 | the corrected crop of a non-square frame whose short side is even is the square of that side |
| `Generator.CentredAgreesOffPortrait` | generator.py:10-13 | the correction changes nothing on landscape and square frames |

Three behaviours of the code that are easy to miss, all modelled as written:

* `frame` starts at -1, so the image-list loop reads `source[-1]` first: the
  last image is processed twice, and an empty folder raises IndexError.
* the frame step is applied with Python's `%`, so a step of 0 raises
  ZeroDivisionError at the first frame read, and a negative step selects
  the multiples of its absolute value.
* the cap is compared only right after an acceptance, so a `--max-frames`
  of 0 or less still lets the first accepted frame through.

## Left out

- CalibrationLoop.CollectCorrespondences: the failure if-and-only-if covers the script's own errors only. `findChessboardCorners` (calibrate.py:64) raises `cv2.error` for a pattern width or height of 2 or less once a frame is offered; that argument check belongs to OpenCV, which the `Detector` oracle stands for, and the oracle never raises. The if-and-only-if is therefore exact only for pattern sides of at least 3.
- OpenCV numerics (`findChessboardCorners`, `cornerSubPix`, `calibrateCamera`, `fisheye.calibrate`): foreign floating-point code. Detection together with refinement is the `Detector` oracle, and the solver and its result are not modelled.
- The fisheye branch (calibrate.py:101-109): `args.fisheye` is never defined by the argument parser, so the test at line 101 raises AttributeError on every run that reaches it, and the YAML report at lines 111-113 is never written.
- Debug-image drawing and writing (calibrate.py:78-81), progress and result printing, and the YAML report (calibrate.py:111-113): these are output only and never affect the accumulated data.
- Cache reloading: the reader at calibrate.py:89-93 is commented out, so the script only ever writes the cache. `Accumulator.Load` and `Accumulator.CacheRoundTrip` model that commented-out reader, to state the promise that a written cache restores the identical set.
- Pickle byte format: the cache is modelled as the sequence of values written, not their serialisation.
- Accumulator.Load: a cache whose values are of other kinds is rejected with ValueError, whereas Python would bind the first two unchecked and unpack any two-element sequence as the third. Only the read-back order of the three values is modelled.
- PySemantics.TruncHalf: `int(x / 2)` goes through a float, and dimensions above 2^53 would round. The model uses exact integer halving, which matches the source for every realistic frame size.
- Image decoding (`cv2.imread`, `cvtColor`) is the `imread` oracle. An unreadable file, where `imread` returns `None` and `cvtColor` then raises, is not modelled. The grayscale frame is assumed to have the size of the image read.
- A video read that fails mid-stream is indistinguishable from the end of the stream, which matches the source's single `retval` test. The capture is modelled as the finite sequence of frames it yields.
- Globbing: the folder's `*.jpg` and `*.png` paths are inputs. Their concatenation and the `sorted` call are modelled.
- FrameSource.FramestepSchedule: the `ceil(n/step)` count and the multiples schedule are stated for step >= 1. Negative steps are covered only by the membership characterisation (`PicksMembership`).
- The capture loop of generator.py (lines 16-68), including its latent NameError when width and height differ (`square` is bound only at line 40), and pic_gen.py: these are interactive camera, window and keyboard code with no pure logic.

## Findings

| source | as written | input that shows it | evidently intended | confidence | as-written member | corrected member |
|---|---|---|---|---|---|---|
| generator.py:13 | the portrait row slice ends at `int(height/2) + int(height/2)` | height 10, width 4: rows 3..9 are kept, giving a 7 x 4 crop that is not square and not centred, while the 4 x 10 frame gets the centred 4 x 4 | the row slice ends at `int(height/2) + int(width/2)`, mirroring the landscape branch, for a centred 4 x 4 crop | high; not executed | `Generator.PortraitCounterexample` | `Generator.CropSquareCentred` |

=== FILE: accumulator.dfy ===
/** The correspondence accumulator of the calibration loop (calibrate.py,
    lines 40-44 and 61-76): what one offered frame does to the collected
    image points, object points, accepted-frame count and recorded frame
    size; the whole loop stated over the sequence of offered frames; and the
    corners cache written at lines 83-87, with `Load` modelling the
    commented-out reader at lines 89-93.
 */
module Accumulator {
  import opened Outcomes
  import opened Pattern
  import opened FrameSource

  /** A detected image corner, in pixels. */
  datatype Point2 = Point2(x: real, y: real)

  /** The corners found in one frame, in board order. */
  type Corners = seq<Point2>

  /** Chessboard search followed by sub-pixel refinement, as one oracle: the
      refined corners, or `None` when the board is not found. */
  type Detector = Image -> Option<Corners>

  /** The loop's accumulator: `img_points`, `obj_points`, `used_frames` and
      the recorded frame size `h, w`. */
  datatype Acc = Acc(imgPoints: seq<Corners>, objPoints: seq<Grid>, usedFrames: nat, h: nat, w: nat)

  /** The accumulator before the first frame (calibrate.py:40-44). */
  const Start: Acc := Acc([], [], 0, 0, 0)

  /** One entry per accepted frame in both lists, and every object-point
      entry a copy of the pattern grid. */
  ghost predicate Consistent(acc: Acc, grid: Grid)
  {
    && |acc.imgPoints| == acc.usedFrames
    && |acc.objPoints| == acc.usedFrames
    && forall i :: 0 <= i < |acc.objPoints| ==> acc.objPoints[i] == grid
  }

  /** Every detection the oracle reports has one corner per grid point, as
      the chessboard search guarantees for the pattern size it is given. */
  ghost predicate Conforms(detect: Detector, n: int)
  {
    forall img :: detect(img).Some? ==> |detect(img).value| == n
  }

  /** Every accepted entry has one image corner per grid point. */
  ghost predicate WellSized(acc: Acc, n: int)
  {
    forall i :: 0 <= i < |acc.imgPoints| ==> |acc.imgPoints[i]| == n
  }

  /** One frame handed to the detector (calibrate.py:63-71): the frame size
      is recorded whatever happens; a detection appends the corners and a
      copy of the grid in lock-step; a miss changes nothing else. */
  function Offer(acc: Acc, img: Image, grid: Grid, detect: Detector): (r: Acc)
    ensures r.h == img.height && r.w == img.width
    ensures detect(img).None? ==>
      r.imgPoints == acc.imgPoints && r.objPoints == acc.objPoints && r.usedFrames == acc.usedFrames
    ensures detect(img).Some? ==>
      && r.usedFrames == acc.usedFrames + 1
      && r.imgPoints == acc.imgPoints + [detect(img).value]
      && r.objPoints == acc.objPoints + [grid]
    ensures Consistent(acc, grid) ==> Consistent(r, grid)
  {
    match detect(img)
    case None => acc.(h := img.height, w := img.width)
    case Some(corners) =>
      Acc(acc.imgPoints + [corners], acc.objPoints + [grid], acc.usedFrames + 1, img.height, img.width)
  }

  /** The `max_frames` test of calibrate.py:72, made right after a frame is
      accepted. */
  predicate CapReached(used: int, cap: Option<int>)
  {
    cap.Some? && used >= cap.value
  }

  /** The loop's effect on the sequence of frames it offers to the detector:
      each is offered in turn, and the loop ends after the accepted frame
      that brings the count to the cap, or when the frames run out. */
  function Collect(offered: seq<Image>, acc: Acc, grid: Grid, detect: Detector, cap: Option<int>): Acc
    decreases |offered|
  {
    if |offered| == 0 then
      acc
    else
      var a := Offer(acc, offered[0], grid, detect);
      if detect(offered[0]).Some? && CapReached(a.usedFrames, cap) then a
      else Collect(offered[1..], a, grid, detect, cap)
  }

  /** The corners of the offered frames on which the board is found, in order. */
  function Hits(offered: seq<Image>, detect: Detector): seq<Corners>
  {
    if |offered| == 0 then []
    else
      match detect(offered[0])
      case Some(c) => [c] + Hits(offered[1..], detect)
      case None => Hits(offered[1..], detect)
  }

  /** `(h, w)` of the last offered frame, or the given pair if none was offered. */
  function LastShape(offered: seq<Image>, h: nat, w: nat): (nat, nat)
  {
    if |offered| == 0 then (h, w)
    else (offered[|offered| - 1].height, offered[|offered| - 1].width)
  }

  /** `n` copies of the pattern grid. */
  function Copies(grid: Grid, n: nat): seq<Grid>
  {
    seq(n, _ => grid)
  }

  /** Without a cap, every offered frame is processed: the image points are
      the detections in offer order, one grid copy each, the count is their
      number, and the size is that of the last offered frame. */
  lemma {:induction false} CollectUncapped(offered: seq<Image>, acc: Acc, grid: Grid, detect: Detector)
    decreases |offered|
    ensures Collect(offered, acc, grid, detect, None).imgPoints == acc.imgPoints + Hits(offered, detect)
    ensures Collect(offered, acc, grid, detect, None).objPoints ==
      acc.objPoints + Copies(grid, |Hits(offered, detect)|)
    ensures Collect(offered, acc, grid, detect, None).usedFrames == acc.usedFrames + |Hits(offered, detect)|
    ensures (Collect(offered, acc, grid, detect, None).h, Collect(offered, acc, grid, detect, None).w) ==
      LastShape(offered, acc.h, acc.w)
  {
    if |offered| > 0 {
      var a := Offer(acc, offered[0], grid, detect);
      CollectUncapped(offered[1..], a, grid, detect);
      var n := |Hits(offered[1..], detect)|;
      if detect(offered[0]).Some? {
        assert acc.objPoints + [grid] + Copies(grid, n) == acc.objPoints + Copies(grid, n + 1);
      }
      if |offered| > 1 {
        assert offered[1..][|offered[1..]| - 1] == offered[|offered| - 1];
      }
    }
  }

  /** With a cap `m`, the loop stops at the first accepted frame that brings
      the count to at least `m` (at the latest, one more than it started
      with): the count is the smaller of that limit and what the frames can
      give, and the image points are the first detections in offer order. */
  lemma {:induction false} CollectCapped(offered: seq<Image>, acc: Acc, grid: Grid, detect: Detector, m: int)
    decreases |offered|
    ensures var limit := if m > acc.usedFrames + 1 then m else acc.usedFrames + 1;
      var total := acc.usedFrames + |Hits(offered, detect)|;
      var r := Collect(offered, acc, grid, detect, Some(m));
      && r.usedFrames == (if total < limit then total else limit)
      && r.imgPoints == acc.imgPoints + Hits(offered, detect)[..r.usedFrames - acc.usedFrames]
  {
    if |offered| > 0 {
      var a := Offer(acc, offered[0], grid, detect);
      CollectCapped(offered[1..], a, grid, detect, m);
      var rest := Hits(offered[1..], detect);
      if detect(offered[0]).Some? {
        var c := detect(offered[0]).value;
        assert Hits(offered, detect) == [c] + rest;
        if !CapReached(a.usedFrames, Some(m)) {
          var r := Collect(offered[1..], a, grid, detect, Some(m));
          assert ([c] + rest)[..r.usedFrames - acc.usedFrames] == [c] + rest[..r.usedFrames - a.usedFrames];
        }
      }
    }
  }

  /** Starting from an empty accumulator, a cap `m` admits at most
      `max(m, 1)` frames: even a cap of zero or below lets one through. */
  lemma CapBound(offered: seq<Image>, grid: Grid, detect: Detector, m: int)
    ensures Collect(offered, Start, grid, detect, Some(m)).usedFrames <= (if m > 1 then m else 1)
    ensures |Hits(offered, detect)| >= 1 ==> Collect(offered, Start, grid, detect, Some(m)).usedFrames >= 1
  {
    CollectCapped(offered, Start, grid, detect, m);
  }

  /** How many offered frames a capped loop gets through before it stops. */
  function Processed(offered: seq<Image>, used: nat, detect: Detector, m: int): (n: nat)
    ensures n <= |offered|
  {
    if |offered| == 0 then 0
    else if detect(offered[0]).Some? && used + 1 >= m then 1
    else 1 + Processed(offered[1..], if detect(offered[0]).Some? then used + 1 else used, detect, m)
  }

  /** A cap only cuts the offered frames short: the capped loop ends in the
      same state as an uncapped loop over the frames it got through. */
  lemma {:induction false} CapTruncates(offered: seq<Image>, acc: Acc, grid: Grid, detect: Detector, m: int)
    decreases |offered|
    ensures Collect(offered, acc, grid, detect, Some(m)) ==
      Collect(offered[..Processed(offered, acc.usedFrames, detect, m)], acc, grid, detect, None)
  {
    if |offered| > 0 {
      var n := Processed(offered, acc.usedFrames, detect, m);
      var a := Offer(acc, offered[0], grid, detect);
      var p := offered[..n];
      assert p[0] == offered[0];
      if detect(offered[0]).Some? && a.usedFrames >= m {
        assert p == [offered[0]];
      } else {
        CapTruncates(offered[1..], a, grid, detect, m);
        assert p[1..] == offered[1..][..n - 1];
      }
    }
  }

  /** The accumulator invariant survives any run of the loop. */
  lemma {:induction false} CollectConsistent(offered: seq<Image>, acc: Acc, grid: Grid, detect: Detector, cap: Option<int>)
    requires Consistent(acc, grid)
    decreases |offered|
    ensures Consistent(Collect(offered, acc, grid, detect, cap), grid)
  {
    if |offered| > 0 {
      CollectConsistent(offered[1..], Offer(acc, offered[0], grid, detect), grid, detect, cap);
    }
  }

  /** With a detector that honours the pattern size, every accepted entry
      pairs as many image corners as object points. */
  lemma {:induction false} CollectWellSized(offered: seq<Image>, acc: Acc, grid: Grid, detect: Detector, cap: Option<int>)
    requires Conforms(detect, |grid|) && WellSized(acc, |grid|)
    decreases |offered|
    ensures WellSized(Collect(offered, acc, grid, detect, cap), |grid|)
  {
    if |offered| > 0 {
      var a := Offer(acc, offered[0], grid, detect);
      assert WellSized(a, |grid|);
      CollectWellSized(offered[1..], a, grid, detect, cap);
    }
  }

  // ---------------------------------------------------------------------
  // Corners cache (calibrate.py:83-87; the reader models the commented-out
  // block at lines 89-93)
  // ---------------------------------------------------------------------

  /** One value written to the cache with `pickle.dump`. */
  datatype Pickled =
    | PickledCorners(corners: seq<Corners>)
    | PickledGrids(grids: seq<Grid>)
    | PickledPair(first: int, second: int)

  /** What the cache holds: the two point lists and the frame size, width first. */
  datatype CornersCache = CornersCache(imgPoints: seq<Corners>, objPoints: seq<Grid>, w: int, h: int)

  /** The three values written, in order: image points, object points, `(w, h)`. */
  function Dump(c: CornersCache): seq<Pickled>
  {
    [PickledCorners(c.imgPoints), PickledGrids(c.objPoints), PickledPair(c.w, c.h)]
  }

  /** Reads the three values back; a file with fewer values ends in
      EOFError, one whose values are of the wrong kinds is rejected. */
  function Load(file: seq<Pickled>): (r: Result<CornersCache>)
    ensures |file| < 3 ==> r == Err(EOFError)
    ensures r.Ok? <==>
      |file| >= 3 && file[0].PickledCorners? && file[1].PickledGrids? && file[2].PickledPair?
    ensures r.Ok? ==> Dump(r.value) == file[..3]
  {
    if |file| < 3 then Err(EOFError)
    else
      match (file[0], file[1], file[2])
      case (PickledCorners(img), PickledGrids(obj), PickledPair(w, h)) => Ok(CornersCache(img, obj, w, h))
      case _ => Err(ValueError)
  }

  /** The cache the script writes after the loop: the accumulated points
      and the recorded size, and reading it back restores all of them. */
  function Persist(acc: Acc): (file: seq<Pickled>)
    ensures Load(file) == Ok(CornersCache(acc.imgPoints, acc.objPoints, acc.w, acc.h))
    ensures |file| == 3
    ensures file[2] == PickledPair(acc.w, acc.h)
  {
    Dump(CornersCache(acc.imgPoints, acc.objPoints, acc.w, acc.h))
  }

  /** Writing a cache and reading it back gives the same points, in the same
      order, and the same size. */
  lemma CacheRoundTrip(c: CornersCache)
    ensures Load(Dump(c)) == Ok(c)
  {
  }
}

=== FILE: calibration_loop.dfy ===
/** The frame-selection and accumulation loop of calibrate.py (lines 40-76)
    as the state machine it is, its equivalence with the accumulator
    specification over the frames each source variant offers, an imperative
    mirror of the loop, and the whole collection phase from the input path
    on (lines 25-76).
 */
module CalibrationLoop {
  import opened Outcomes
  import opened PySemantics
  import opened Pattern
  import opened FrameSource
  import opened Accumulator

  /** The command-line options the loop reads: `--framestep` and `--max-frames`. */
  datatype Config = Config(framestep: int, maxFrames: Option<int>)

  /** The loop variables besides the accumulator: `frame`, the read counter. */
  datatype LoopState = LoopState(frame: int, acc: Acc)

  /** The state before the first iteration (calibrate.py:40-44). */
  const Initial: LoopState := LoopState(-1, Start)

  /** How one iteration ends: go round again, `break`, or an exception. */
  datatype Next = Continue(state: LoopState) | Stop(state: LoopState) | Raise(error: PyError)

  /** The second half of an iteration (calibrate.py:61-76), once the frame
      counter has been advanced to `frame` and `img` has been read. */
  function Process(frame: int, img: Image, acc: Acc, cfg: Config, grid: Grid, detect: Detector): Next
  {
    var a := Offer(acc, img, grid, detect);
    if detect(img).Some? && CapReached(a.usedFrames, cfg.maxFrames) then Stop(LoopState(frame, a))
    else Continue(LoopState(frame, a))
  }

  /** One iteration of the `while True` loop (calibrate.py:45-76). The image
      list is indexed with the counter before it is advanced, so the first
      read is `source[-1]`; a video frame is offered only when its read
      index is divisible by the step. */
  function Step(src: Source, cfg: Config, grid: Grid, detect: Detector, imread: Path -> Image, st: LoopState): (n: Next)
    requires -1 <= st.frame <= Items(src)
    ensures n.Continue? ==> n.state.frame == st.frame + 1 && n.state.frame <= Items(src)
  {
    match src
    case ImageList(paths) =>
      if st.frame >= |paths| then
        Stop(st)
      else (
        match PyIndex(paths, st.frame)
        case Err(e) => Raise(e)
        case Ok(p) => Process(st.frame + 1, imread(p), st.acc, cfg, grid, detect)
      )
    case Video(frames) =>
      if st.frame + 1 >= |frames| then
        Stop(st)
      else
        var i := st.frame + 1;
        if cfg.framestep == 0 then Raise(ZeroDivisionError)
        else if FloorMod(i, cfg.framestep) != 0 then Continue(LoopState(i, st.acc))
        else Process(i, frames[i], st.acc, cfg, grid, detect)
  }

  /** The loop run from state `st` to its `break` or exception. */
  function Run(src: Source, cfg: Config, grid: Grid, detect: Detector, imread: Path -> Image, st: LoopState): Result<Acc>
    requires -1 <= st.frame <= Items(src)
    decreases Items(src) - st.frame
  {
    match Step(src, cfg, grid, detect, imread, st)
    case Stop(s) => Ok(s.acc)
    case Raise(e) => Err(e)
    case Continue(s) => Run(src, cfg, grid, detect, imread, s)
  }

  /** The image-list loop processes, in order, the images it reads from
      index `f` (not negative) to the end of the list. */
  lemma {:induction false} RunImageListFrom(paths: seq<Path>, cfg: Config, grid: Grid, detect: Detector,
                                            imread: Path -> Image, f: nat, acc: Acc)
    requires f <= |paths|
    decreases |paths| - f
    ensures Run(ImageList(paths), cfg, grid, detect, imread, LoopState(f, acc)) ==
      Ok(Collect(ReadAll(paths[f..], imread), acc, grid, detect, cfg.maxFrames))
  {
    if f < |paths| {
      var v := paths[f..];
      assert v[1..] == paths[f + 1..];
      ModOfInRange(f, |paths|);
      var a := Offer(acc, imread(paths[f]), grid, detect);
      assert ReadAll(v, imread) == [imread(paths[f])] + ReadAll(v[1..], imread);
      var n := Step(ImageList(paths), cfg, grid, detect, imread, LoopState(f, acc));
      if n.Continue? {
        assert n.state == LoopState(f + 1, a);
        RunImageListFrom(paths, cfg, grid, detect, imread, f + 1, a);
      }
    }
  }

  /** From the start, the image-list loop processes the last image and then
      every image in order; an empty list raises IndexError on the first
      read. */
  lemma RunImageList(paths: seq<Path>, cfg: Config, grid: Grid, detect: Detector, imread: Path -> Image)
    ensures Run(ImageList(paths), cfg, grid, detect, imread, Initial) ==
      if |paths| == 0 then Err(IndexError)
      else Ok(Collect(ReadAll(ListVisits(paths), imread), Start, grid, detect, cfg.maxFrames))
  {
    if |paths| > 0 {
      var v := ListVisits(paths);
      DivModUnique(-1, |paths|, -1, |paths| - 1);
      var a := Offer(Start, imread(v[0]), grid, detect);
      assert ReadAll(v, imread) == [imread(v[0])] + ReadAll(paths, imread);
      var n := Step(ImageList(paths), cfg, grid, detect, imread, Initial);
      if n.Continue? {
        assert n.state == LoopState(0, a);
        RunImageListFrom(paths, cfg, grid, detect, imread, 0, a);
        assert paths[0..] == paths;
      }
    }
  }

  /** The video loop processes exactly the frames its step picks from read
      index `f + 1` on; a zero step raises ZeroDivisionError at the first
      frame read, and never when no frame is left. */
  lemma {:induction false} RunVideo(frames: seq<Image>, cfg: Config, grid: Grid, detect: Detector,
                                    imread: Path -> Image, f: int, acc: Acc)
    requires -1 <= f <= |frames|
    decreases |frames| - f
    ensures cfg.framestep != 0 ==>
      Run(Video(frames), cfg, grid, detect, imread, LoopState(f, acc)) ==
      Ok(Collect(Offered(frames, f + 1, cfg.framestep), acc, grid, detect, cfg.maxFrames))
    ensures cfg.framestep == 0 ==>
      Run(Video(frames), cfg, grid, detect, imread, LoopState(f, acc)) ==
      (if f + 1 < |frames| then Err(ZeroDivisionError) else Ok(acc))
  {
    var src := Video(frames);
    var st := LoopState(f, acc);
    var fs := cfg.framestep;
    if f + 1 < |frames| && fs != 0 {
      var i := f + 1;
      PicksInRange(i + 1, |frames|, fs);
      var later := Picks(i + 1, |frames|, fs);
      if FloorMod(i, fs) != 0 {
        assert Picks(i, |frames|, fs) == later;
        RunVideo(frames, cfg, grid, detect, imread, i, acc);
      } else {
        assert Picks(i, |frames|, fs) == [i] + later;
        assert Offered(frames, i, fs) == [frames[i]] + Select(frames, later);
        var a := Offer(acc, frames[i], grid, detect);
        match Step(src, cfg, grid, detect, imread, st)
        case Stop(s) =>
        case Raise(e) =>
        case Continue(s) =>
          assert s == LoopState(i, a);
          RunVideo(frames, cfg, grid, detect, imread, i, a);
      }
    }
  }

  /** From the start, a video with a step of at least one offers frames
      `0, step, 2 * step, ...`: `ceil(n / step)` of them. */
  lemma RunVideoSchedule(frames: seq<Image>, cfg: Config, grid: Grid, detect: Detector, imread: Path -> Image)
    requires cfg.framestep >= 1
    ensures Run(Video(frames), cfg, grid, detect, imread, Initial) ==
      Ok(Collect(Offered(frames, 0, cfg.framestep), Start, grid, detect, cfg.maxFrames))
    ensures |Offered(frames, 0, cfg.framestep)| == CeilDiv(|frames|, cfg.framestep)
    ensures forall k :: 0 <= k < |Offered(frames, 0, cfg.framestep)| ==>
      k * cfg.framestep < |frames| && Offered(frames, 0, cfg.framestep)[k] == frames[k * cfg.framestep]
  {
    var fs := cfg.framestep;
    RunVideo(frames, cfg, grid, detect, imread, -1, Start);
    FramestepSchedule(|frames|, fs);
    PicksInRange(0, |frames|, fs);
    var p := Picks(0, |frames|, fs);
    var o := Offered(frames, 0, fs);
    assert o == Select(frames, p);
    forall k | 0 <= k < |o| ensures k * fs < |frames| && o[k] == frames[k * fs] {
      assert p[k] == k * fs;
    }
  }

  /** Without a cap, the image-list loop accepts the detections of the last
      image and then of every image in order, and records the size of the
      last image, which it reads last. */
  lemma UncappedImageList(paths: seq<Path>, cfg: Config, grid: Grid, detect: Detector, imread: Path -> Image)
    requires cfg.maxFrames.None? && |paths| > 0
    ensures var r := Run(ImageList(paths), cfg, grid, detect, imread, Initial);
      var hits := Hits(ReadAll(ListVisits(paths), imread), detect);
      var last := imread(paths[|paths| - 1]);
      && r.Ok?
      && r.value.imgPoints == hits
      && r.value.usedFrames == |hits|
      && r.value.h == last.height && r.value.w == last.width
  {
    RunImageList(paths, cfg, grid, detect, imread);
    CollectUncapped(ReadAll(ListVisits(paths), imread), Start, grid, detect);
  }

  /** Without a cap, the video loop accepts the detections of the offered
      frames in order and records the size of the last offered frame, or
      keeps `(0, 0)` when the video has no frame at all. */
  lemma UncappedVideo(frames: seq<Image>, cfg: Config, grid: Grid, detect: Detector, imread: Path -> Image)
    requires cfg.maxFrames.None? && cfg.framestep >= 1
    ensures var r := Run(Video(frames), cfg, grid, detect, imread, Initial);
      var hits := Hits(Offered(frames, 0, cfg.framestep), detect);
      && r.Ok?
      && r.value.imgPoints == hits
      && r.value.usedFrames == |hits|
      && (|frames| == 0 ==> r.value.h == 0 && r.value.w == 0)
      && (|frames| > 0 ==>
            var last := (CeilDiv(|frames|, cfg.framestep) - 1) * cfg.framestep;
            0 <= last < |frames| && r.value.h == frames[last].height && r.value.w == frames[last].width)
  {
    var fs := cfg.framestep;
    var o := Offered(frames, 0, fs);
    RunVideoSchedule(frames, cfg, grid, detect, imread);
    CollectUncapped(o, Start, grid, detect);
    if |frames| > 0 {
      PicksMembership(0, |frames|, fs, 0);
      var c := CeilDiv(|frames|, fs);
      assert |o| == c && c >= 1;
      assert o[c - 1] == frames[(c - 1) * fs];
    }
  }

  /** Whatever the source, a completed loop leaves the accumulator
      consistent with the pattern grid; with a cap `m` it holds at most
      `max(m, 1)` frames; and with a detector that honours the pattern size,
      every entry pairs as many image corners as object points. */
  lemma RunInvariant(src: Source, cfg: Config, grid: Grid, detect: Detector, imread: Path -> Image)
    ensures var r := Run(src, cfg, grid, detect, imread, Initial);
      r.Ok? ==> Consistent(r.value, grid)
    ensures var r := Run(src, cfg, grid, detect, imread, Initial);
      r.Ok? && cfg.maxFrames.Some? ==>
        r.value.usedFrames <= (if cfg.maxFrames.value > 1 then cfg.maxFrames.value else 1)
    ensures var r := Run(src, cfg, grid, detect, imread, Initial);
      r.Ok? && Conforms(detect, |grid|) ==> WellSized(r.value, |grid|)
  {
    var r := Run(src, cfg, grid, detect, imread, Initial);
    if r.Ok? {
      var offered: seq<Image>;
      match src {
        case ImageList(paths) =>
          RunImageList(paths, cfg, grid, detect, imread);
          offered := ReadAll(ListVisits(paths), imread);
        case Video(frames) =>
          RunVideo(frames, cfg, grid, detect, imread, -1, Start);
          offered := if cfg.framestep == 0 then [] else Offered(frames, 0, cfg.framestep);
      }
      assert r.value == Collect(offered, Start, grid, detect, cfg.maxFrames);
      CollectConsistent(offered, Start, grid, detect, cfg.maxFrames);
      if cfg.maxFrames.Some? {
        CapBound(offered, grid, detect, cfg.maxFrames.value);
      }
      if Conforms(detect, |grid|) {
        CollectWellSized(offered, Start, grid, detect, cfg.maxFrames);
      }
    }
  }

  /** The collection phase of calibrate.py (lines 25-76): open the input,
      build the pattern grid, run the loop. An input path that is neither a
      folder nor a file is a ValueError before anything else; a negative
      pattern size is a ValueError before the first frame; a folder without
      images raises IndexError on the first read; a video with a zero step
      raises ZeroDivisionError at its first frame. The detector is an oracle
      that never raises, so nothing else fails here; OpenCV's own rejection
      of a pattern side of 2 or less is outside the model. */
  function CollectCorrespondences(input: InputPath, pw: int, ph: int, cfg: Config,
                                  detect: Detector, imread: Path -> Image): (r: Result<Acc>)
    ensures input.Missing? ==> r == Err(ValueError)
    ensures !input.Missing? && (pw < 0 || ph < 0) ==> r == Err(ValueError)
    ensures input.Folder? && |input.jpgs| + |input.pngs| == 0 && pw >= 0 && ph >= 0 ==> r == Err(IndexError)
    ensures input.VideoFile? && cfg.framestep == 0 && |input.frames| > 0 && pw >= 0 && ph >= 0 ==>
      r == Err(ZeroDivisionError)
    ensures r.Err? <==>
      input.Missing? || pw < 0 || ph < 0 ||
      (input.Folder? && |input.jpgs| + |input.pngs| == 0) ||
      (input.VideoFile? && cfg.framestep == 0 && |input.frames| > 0)
    ensures r.Ok? ==> PatternPoints(pw, ph).Ok? && Consistent(r.value, PatternPoints(pw, ph).value)
    ensures r.Ok? && cfg.maxFrames.Some? ==>
      r.value.usedFrames <= (if cfg.maxFrames.value > 1 then cfg.maxFrames.value else 1)
  {
    match OpenSource(input)
    case Err(e) => Err(e)
    case Ok(src) =>
      match PatternPoints(pw, ph)
      case Err(e) => Err(e)
      case Ok(grid) =>
        RunInvariant(src, cfg, grid, detect, imread);
        if src.ImageList? then
          RunImageList(src.paths, cfg, grid, detect, imread);
          assert input.Folder? ==> |src.paths| == |input.jpgs| + |input.pngs| by {
            if input.Folder? {
              assert |multiset(src.paths)| == |multiset(input.jpgs + input.pngs)|;
            }
          }
          Run(src, cfg, grid, detect, imread, Initial)
        else
          RunVideo(src.frames, cfg, grid, detect, imread, -1, Start);
          Run(src, cfg, grid, detect, imread, Initial)
  }

  /** An imperative rendering of the loop as the script writes it, with
      in-place appends; it ends in the same state as `Run` and keeps the
      accumulator invariant on every iteration. */
  method GatherCorrespondences(src: Source, cfg: Config, grid: Grid, detect: Detector, imread: Path -> Image)
    returns (r: Result<Acc>)
    ensures r == Run(src, cfg, grid, detect, imread, Initial)
    ensures r.Ok? ==> Consistent(r.value, grid)
  {
    var objPoints: seq<Grid> := [];
    var imgPoints: seq<Corners> := [];
    var h: nat, w: nat := 0, 0;
    var frame := -1;
    var usedFrames: nat := 0;
    while true
      invariant -1 <= frame <= Items(src)
      invariant |imgPoints| == usedFrames && |objPoints| == usedFrames
      invariant forall i :: 0 <= i < |objPoints| ==> objPoints[i] == grid
      invariant Run(src, cfg, grid, detect, imread, LoopState(frame, Acc(imgPoints, objPoints, usedFrames, h, w))) ==
                Run(src, cfg, grid, detect, imread, Initial)
      decreases Items(src) - frame
    {
      var img: Image;
      if src.ImageList? {
        if frame >= |src.paths| {
          return Ok(Acc(imgPoints, objPoints, usedFrames, h, w));
        }
        var path := PyIndex(src.paths, frame);
        if path.Err? {
          return Err(path.error);
        }
        img := imread(path.value);
        frame := frame + 1;
      } else {
        if frame + 1 >= |src.frames| {
          return Ok(Acc(imgPoints, objPoints, usedFrames, h, w));
        }
        img := src.frames[frame + 1];
        frame := frame + 1;
        if cfg.framestep == 0 {
          return Err(ZeroDivisionError);
        }
        if FloorMod(frame, cfg.framestep) != 0 {
          continue;
        }
      }
      h, w := img.height, img.width;
      var found := detect(img);
      if found.Some? {
        usedFrames := usedFrames + 1;
        imgPoints := imgPoints + [found.value];
        objPoints := objPoints + [grid];
        if cfg.maxFrames.Some? && usedFrames >= cfg.maxFrames.value {
          return Ok(Acc(imgPoints, objPoints, usedFrames, h, w));
        }
      }
    }
  }
}

=== FILE: crop_square.dfy ===
/** `crop_square` of generator.py (lines 7-14): the slice bounds it cuts a
    `height` x `width` frame to, with Python's `int(x / 2)` and slice
    normalisation written out, and the centred crop its landscape branch
    shows was meant.
 */
module Generator {
  import opened PySemantics

  /** The rows and the columns a crop keeps, each as `[lo, hi)`. */
  datatype Crop = Crop(rows: Span, cols: Span)

  /** The same crop with rows and columns exchanged. */
  function Transpose(c: Crop): Crop
  {
    Crop(c.cols, c.rows)
  }

  /** `crop_square` as written (generator.py:7-14). A landscape frame keeps
      every row and the `2 * (h // 2)` columns around the middle; otherwise
      every column is kept and the rows run from `h // 2 - w // 2` to
      `2 * (h // 2)`. Neither slice ever needs clamping: both lie inside the
      frame, so the crop never enlarges it. */
  function CropSquare(height: nat, width: nat): (c: Crop)
    ensures 0 <= c.rows.lo <= c.rows.hi <= height
    ensures 0 <= c.cols.lo <= c.cols.hi <= width
    ensures height < width ==>
      c.rows == Span(0, height) && c.cols == Span(width / 2 - height / 2, width / 2 + height / 2)
    ensures height >= width ==>
      c.cols == Span(0, width) && c.rows == Span(height / 2 - width / 2, 2 * (height / 2))
  {
    var hh, hw := TruncHalf(height), TruncHalf(width);
    if height < width then
      Crop(FullSlice(height), PySlice(hw - hh, hw + hh, width))
    else
      Crop(PySlice(hh - hw, hh + hh, height), FullSlice(width))
  }

  /** A landscape frame keeps all its rows and `h` columns when `h` is even,
      `h - 1` when it is odd. */
  lemma LandscapeSize(height: nat, width: nat)
    requires height < width
    ensures CropSquare(height, width).rows.Len() == height
    ensures CropSquare(height, width).cols.Len() == (if height % 2 == 0 then height else height - 1)
  {
  }

  /** A portrait or square frame keeps all its columns and `h // 2 + w // 2`
      rows, which is not `w` in general. */
  lemma PortraitSize(height: nat, width: nat)
    requires height >= width
    ensures CropSquare(height, width).cols.Len() == width
    ensures CropSquare(height, width).rows.Len() == height / 2 + width / 2
  {
  }

  /** A square frame of even side comes back whole. */
  lemma SquareEvenUnchanged(side: nat)
    requires side % 2 == 0
    ensures CropSquare(side, side) == Crop(Span(0, side), Span(0, side))
  {
  }

  /** A square frame of odd side loses exactly its last row. */
  lemma SquareOddDropsLastRow(side: nat)
    requires side % 2 == 1
    ensures CropSquare(side, side) == Crop(Span(0, side - 1), Span(0, side))
  {
  }

  /** As written, a portrait crop is square exactly when
      `h // 2 == ceil(w / 2)`: `h` is `w` or `w + 1` for an even width, and
      `w + 1` or `w + 2` for an odd one. */
  lemma PortraitSquareOnlyNearDiagonal(height: nat, width: nat)
    requires height >= width
    ensures CropSquare(height, width).rows.Len() == CropSquare(height, width).cols.Len()
      <==> height / 2 == (width + 1) / 2
  {
  }

  /** A 10 x 4 portrait frame is cut to 7 x 4, rows 3 to 9, where the
      centred square is rows 3 to 6; turned on its side, the same frame is
      cut to the centred 4 x 4. */
  lemma PortraitCounterexample()
    ensures CropSquare(10, 4) == Crop(Span(3, 10), Span(0, 4))
    ensures CropSquare(4, 10) == Crop(Span(0, 4), Span(3, 7))
    ensures CropSquare(4, 10) != Transpose(CropSquare(10, 4))
  {
  }

  /** The crop with the portrait branch mirroring the landscape one: rows
      `[h // 2 - w // 2, h // 2 + w // 2)`. */
  function CropSquareCentred(height: nat, width: nat): (c: Crop)
    ensures 0 <= c.rows.lo <= c.rows.hi <= height
    ensures 0 <= c.cols.lo <= c.cols.hi <= width
    ensures c.rows.lo + c.rows.hi == 2 * (height / 2) || c.rows == Span(0, height)
    ensures c.cols.lo + c.cols.hi == 2 * (width / 2) || c.cols == Span(0, width)
  {
    var hh, hw := TruncHalf(height), TruncHalf(width);
    assert hh == height / 2 && hw == width / 2;
    if height < width then
      assert 0 <= hw - hh <= hw + hh <= width;
      Crop(FullSlice(height), PySlice(hw - hh, hw + hh, width))
    else
      assert 0 <= hh - hw <= hh + hw <= height;
      Crop(PySlice(hh - hw, hh + hw, height), FullSlice(width))
  }

  /** The centred crop treats a frame and its transpose alike. */
  lemma CentredTransposeSymmetric(height: nat, width: nat)
    requires height != width
    ensures CropSquareCentred(width, height) == Transpose(CropSquareCentred(height, width))
  {
  }

  /** The centred crop of a non-square frame whose short side is even is the
      square of that side. */
  lemma CentredIsSquare(height: nat, width: nat)
    requires height != width
    requires (if height < width then height else width) % 2 == 0
    ensures CropSquareCentred(height, width).rows.Len() == (if height < width then height else width)
    ensures CropSquareCentred(height, width).cols.Len() == (if height < width then height else width)
  {
  }

  /** The two crops differ only on portrait frames: on landscape and square
      frames the fix changes nothing. */
  lemma CentredAgreesOffPortrait(height: nat, width: nat)
    requires height <= width
    ensures CropSquareCentred(height, width) == CropSquare(height, width)
  {
  }
}

=== FILE: frame_source.dfy ===
/** Where the calibration frames come from (calibrate.py, lines 25-59): the
    input-kind dispatch, the sorted image list with the order in which the
    loop visits it, and the frame-step schedule of the video variant.
 */
module FrameSource {
  import opened Outcomes
  import opened PySemantics

  /** A decoded frame. Only its shape matters to the loop; the pixels are
      handed to the corner detector untouched. */
  datatype Image = Image(height: nat, width: nat, pixels: seq<int>)

  /** A file-system path, compared the way Python compares `str`. */
  type Path = string

  /** What the input argument names: a folder (with the `*.jpg` and `*.png`
      files it holds, as globbed), a video file (with the frames its
      capture yields), or neither. */
  datatype InputPath =
    | Folder(jpgs: seq<Path>, pngs: seq<Path>)
    | VideoFile(frames: seq<Image>)
    | Missing

  /** The `source` variable of the script: a list of image paths, or an open
      video capture whose remaining frames are `frames`. */
  datatype Source = ImageList(paths: seq<Path>) | Video(frames: seq<Image>)

  /** How many items the source can yield: paths or video frames. */
  function Items(src: Source): nat
  {
    match src
    case ImageList(paths) => |paths|
    case Video(frames) => |frames|
  }

  // ---------------------------------------------------------------------
  // Sorting the image paths
  // ---------------------------------------------------------------------

  /** Python's `a <= b` on strings: lexicographic by code point, a proper
      prefix ordering first. */
  predicate LexLe(a: string, b: string)
    decreases |a|
  {
    |a| == 0 || (|b| > 0 && (a[0] < b[0] || (a[0] == b[0] && LexLe(a[1..], b[1..]))))
  }

  lemma {:induction false} LexTotal(a: string, b: string)
    decreases |a|
    ensures LexLe(a, b) || LexLe(b, a)
  {
    if |a| > 0 && |b| > 0 && a[0] == b[0] {
      LexTotal(a[1..], b[1..]);
    }
  }

  lemma {:induction false} LexReflexive(a: string)
    decreases |a|
    ensures LexLe(a, a)
  {
    if |a| > 0 {
      LexReflexive(a[1..]);
    }
  }

  lemma {:induction false} LexTransitive(a: string, b: string, c: string)
    requires LexLe(a, b) && LexLe(b, c)
    decreases |a|
    ensures LexLe(a, c)
  {
    if |a| > 0 && a[0] == b[0] && b[0] == c[0] {
      LexTransitive(a[1..], b[1..], c[1..]);
    }
  }

  lemma {:induction false} LexAntisymmetric(a: string, b: string)
    requires LexLe(a, b) && LexLe(b, a)
    decreases |a|
    ensures a == b
  {
    if |a| > 0 {
      LexAntisymmetric(a[1..], b[1..]);
      assert a == [a[0]] + a[1..];
      assert b == [b[0]] + b[1..];
    }
  }

  /** Every earlier path is `<=` every later one. */
  ghost predicate Sorted(s: seq<Path>)
  {
    forall i, j :: 0 <= i < j < |s| ==> LexLe(s[i], s[j])
  }

  /** A lower bound of a sorted list's head and of `x` bounds every element
      of a list holding the same paths as the two. */
  lemma LowerBound(b: Path, s: seq<Path>, x: Path, t: seq<Path>)
    requires Sorted(s) && |s| > 0 && LexLe(b, s[0]) && LexLe(b, x)
    requires multiset(t) == multiset(s) + multiset{x}
    ensures forall j :: 0 <= j < |t| ==> LexLe(b, t[j])
  {
    forall j | 0 <= j < |t| ensures LexLe(b, t[j]) {
      assert t[j] in multiset(t);
      if t[j] != x {
        assert t[j] in multiset(s);
        var i :| 0 <= i < |s| && s[i] == t[j];
        if i > 0 { LexTransitive(b, s[0], s[i]); }
      }
    }
  }

  /** Inserts `x` into a sorted list, before the first entry it is `<=`. */
  function Insert(x: Path, s: seq<Path>): (r: seq<Path>)
    requires Sorted(s)
    ensures Sorted(r)
    ensures multiset(r) == multiset(s) + multiset{x}
  {
    if |s| == 0 then
      [x]
    else if LexLe(x, s[0]) then
      LexReflexive(x);
      LowerBound(x, s, x, [x] + s);
      [x] + s
    else
      LexTotal(x, s[0]);
      LexReflexive(s[0]);
      var t := Insert(x, s[1..]);
      assert s == [s[0]] + s[1..];
      LowerBound(s[0], s, x, [s[0]] + t);
      [s[0]] + t
  }

  /** Python's `sorted` on a list of paths. */
  function SortPaths(s: seq<Path>): (r: seq<Path>)
    ensures Sorted(r)
    ensures multiset(r) == multiset(s)
  {
    if |s| == 0 then
      []
    else
      assert s == [s[0]] + s[1..];
      Insert(s[0], SortPaths(s[1..]))
  }

  /** Two non-empty sorted arrangements of the same paths start alike. */
  lemma SortedHeadsAgree(a: seq<Path>, b: seq<Path>)
    requires Sorted(a) && Sorted(b)
    requires multiset(a) == multiset(b) && |a| > 0
    ensures |b| > 0 && a[0] == b[0]
  {
    assert a[0] in multiset(b);
    var i :| 0 <= i < |b| && b[i] == a[0];
    assert b[0] in multiset(a);
    var j :| 0 <= j < |a| && a[j] == b[0];
    LexReflexive(a[0]);
    assert LexLe(b[0], a[0]) by { if i > 0 { assert LexLe(b[0], b[i]); } }
    assert LexLe(a[0], b[0]) by { if j > 0 { assert LexLe(a[0], a[j]); } }
    LexAntisymmetric(a[0], b[0]);
  }

  /** Removing equal heads leaves equal multisets. */
  lemma TailsAgree(a: seq<Path>, b: seq<Path>)
    requires multiset(a) == multiset(b) && |a| > 0 && |b| > 0 && a[0] == b[0]
    ensures multiset(a[1..]) == multiset(b[1..])
  {
    assert a == [a[0]] + a[1..] && b == [b[0]] + b[1..];
    assert multiset(a[1..]) == multiset(a) - multiset{a[0]};
    assert multiset(b[1..]) == multiset(b) - multiset{b[0]};
  }

  /** Two sorted arrangements of the same paths are the same list, so
      `SortPaths` is the one order `sorted` can produce. */
  lemma {:induction false} SortedUnique(a: seq<Path>, b: seq<Path>)
    requires Sorted(a) && Sorted(b)
    requires multiset(a) == multiset(b)
    decreases |a|
    ensures a == b
  {
    assert |a| == |b| by {
      assert |multiset(a)| == |a| && |multiset(b)| == |b|;
    }
    if |a| > 0 {
      SortedHeadsAgree(a, b);
      TailsAgree(a, b);
      SortedUnique(a[1..], b[1..]);
      assert a == [a[0]] + a[1..] && b == [b[0]] + b[1..];
    }
  }

  // ---------------------------------------------------------------------
  // Input dispatch (calibrate.py:25-32)
  // ---------------------------------------------------------------------

  /** Opens the input: a folder becomes the sorted list of its `.jpg` and
      `.png` files, a file becomes a video capture, anything else is a
      ValueError raised before any frame is read. */
  function OpenSource(input: InputPath): (r: Result<Source>)
    ensures r.Err? <==> input.Missing?
    ensures r.Err? ==> r.error == ValueError
    ensures input.Folder? ==>
      r.Ok? && r.value.ImageList? && Sorted(r.value.paths) &&
      multiset(r.value.paths) == multiset(input.jpgs + input.pngs)
    ensures input.VideoFile? ==> r == Ok(Video(input.frames))
  {
    match input
    case Folder(jpgs, pngs) => Ok(ImageList(SortPaths(jpgs + pngs)))
    case VideoFile(frames) => Ok(Video(frames))
    case Missing => Err(ValueError)
  }

  // ---------------------------------------------------------------------
  // Image-list visit order (calibrate.py:43, 48-51)
  // ---------------------------------------------------------------------

  /** The order in which the loop reads a non-empty image list: the read
      index starts at -1, so the last image comes first and is then read
      again at the end. */
  function ListVisits(paths: seq<Path>): (v: seq<Path>)
    requires |paths| > 0
    ensures |v| == |paths| + 1
    ensures v[1..] == paths
    ensures v[0] == v[|paths|]
  {
    [paths[|paths| - 1]] + paths
  }

  /** Reads each path of `ps` with `imread`, in order. */
  function ReadAll(ps: seq<Path>, imread: Path -> Image): (imgs: seq<Image>)
    ensures |imgs| == |ps|
    ensures forall k :: 0 <= k < |ps| ==> imgs[k] == imread(ps[k])
  {
    if |ps| == 0 then [] else [imread(ps[0])] + ReadAll(ps[1..], imread)
  }

  // ---------------------------------------------------------------------
  // Video frame step (calibrate.py:54-59)
  // ---------------------------------------------------------------------

  /** The 0-based read indices in `[start, n)` that the video loop hands to
      the detector: those with `index % framestep == 0` in Python terms. */
  function Picks(start: nat, n: nat, framestep: int): seq<nat>
    requires framestep != 0
    decreases n - start
  {
    if start >= n then []
    else if FloorMod(start, framestep) == 0 then [start] + Picks(start + 1, n, framestep)
    else Picks(start + 1, n, framestep)
  }

  /** A read index is picked iff it is in range and divisible by the step. */
  lemma {:induction false} PicksMembership(start: nat, n: nat, framestep: int, i: int)
    requires framestep != 0
    decreases n - start
    ensures i in Picks(start, n, framestep) <==> start <= i < n && FloorMod(i, framestep) == 0
  {
    if start < n {
      PicksMembership(start + 1, n, framestep, i);
    }
  }

  /** Indices with no multiple of the step among them are skipped. */
  lemma {:induction false} PicksSkip(a: nat, b: nat, n: nat, framestep: int)
    requires framestep != 0
    requires a <= b <= n
    requires forall i :: a <= i < b ==> FloorMod(i, framestep) != 0
    decreases b - a
    ensures Picks(a, n, framestep) == Picks(b, n, framestep)
  {
    if a < b {
      PicksSkip(a + 1, b, n, framestep);
    }
  }

  /** `ceil(n / step)`: the number of multiples of `step` in `[0, n)`. */
  function CeilDiv(n: nat, step: nat): nat
    requires step >= 1
  {
    (n + step - 1) / step
  }

  /** `ceil(j * step / step) == j`. */
  lemma CeilDivOfMultiple(j: nat, step: int)
    requires step >= 1
    ensures CeilDiv(j * step, step) == j
  {
    DivModUnique(j * step + step - 1, step, j, step - 1);
  }

  /** A bound strictly between two consecutive multiples rounds up to the
      upper one. */
  lemma CeilDivBetween(j: nat, n: nat, step: int)
    requires step >= 1 && j * step < n <= (j + 1) * step
    ensures CeilDiv(n, step) == j + 1
  {
    var q := j + 1;
    assert q * step == j * step + step;
    DivModUnique(n + step - 1, step, q, n + step - 1 - q * step);
  }

  /** No multiple of the step lies strictly between `j * step` and the next one. */
  lemma NoMultipleInGap(j: nat, step: int, i: int)
    requires step >= 1 && j * step < i < j * step + step
    ensures FloorMod(i, step) != 0
  {
    DivModUnique(i, step, j, i - j * step);
  }

  /** A multiple `j * step` below `n` is picked, and the next pick is the
      following multiple (or nothing once that reaches `n`). */
  lemma PicksAtMultiple(j: nat, n: nat, step: int)
    requires step >= 1 && j * step < n
    ensures Picks(j * step, n, step) ==
      [j * step] + Picks(if j * step + step <= n then j * step + step else n, n, step)
  {
    var m := j * step;
    DivModUnique(m, step, j, 0);
    assert Picks(m, n, step) == [m] + Picks(m + 1, n, step);
    var next := if m + step <= n then m + step else n;
    forall i | m + 1 <= i < next ensures FloorMod(i, step) != 0 {
      NoMultipleInGap(j, step, i);
    }
    PicksSkip(m + 1, next, n, step);
  }

  /** Prepending `j * step` to the multiples from `j + 1` on gives the
      multiples from `j` on. */
  lemma ConsMultiples(j: nat, c: nat, step: int)
    requires c >= j + 1
    ensures [j * step] + seq(c - (j + 1), k => (j + 1 + k) * step) == seq(c - j, k => (j + k) * step)
  {
    var rest := seq(c - (j + 1), k => (j + 1 + k) * step);
    forall k | 0 <= k < c - j ensures ([j * step] + rest)[k] == (j + k) * step {
      if k > 0 {
        assert ([j * step] + rest)[k] == rest[k - 1];
      }
    }
  }

  /** From a multiple `j * step` on, the picked indices are the successive
      multiples of the step below `n`. */
  lemma {:induction false} PicksFromMultiple(j: nat, n: nat, step: int)
    requires step >= 1 && j * step <= n
    decreases n - j * step
    ensures CeilDiv(n, step) >= j
    ensures Picks(j * step, n, step) == seq(CeilDiv(n, step) - j, k => (j + k) * step)
  {
    var m := j * step;
    if m == n {
      CeilDivOfMultiple(j, step);
    } else {
      PicksAtMultiple(j, n, step);
      var m' := m + step;
      assert m' == (j + 1) * step;
      if m' <= n {
        PicksFromMultiple(j + 1, n, step);
        ConsMultiples(j, CeilDiv(n, step), step);
      } else {
        CeilDivBetween(j, n, step);
        assert Picks(m, n, step) == [m];
      }
    }
  }

  /** With `n` frames and a step of at least one, the detector is offered
      frames `0, step, 2 * step, ...`, `ceil(n / step)` of them. */
  lemma FramestepSchedule(n: nat, step: int)
    requires step >= 1
    ensures |Picks(0, n, step)| == CeilDiv(n, step)
    ensures forall k :: 0 <= k < |Picks(0, n, step)| ==> Picks(0, n, step)[k] == k * step
  {
    PicksFromMultiple(0, n, step);
  }

  /** A 100-frame video with the default step of 20 offers frames 0, 20,
      40, 60 and 80. */
  lemma DefaultFramestep()
    ensures Picks(0, 100, 20) == [0, 20, 40, 60, 80]
  {
    FramestepSchedule(100, 20);
  }

  /** The frames at the given read indices, in order. */
  function Select(frames: seq<Image>, idx: seq<nat>): (s: seq<Image>)
    requires forall k :: 0 <= k < |idx| ==> idx[k] < |frames|
    ensures |s| == |idx|
    ensures forall k :: 0 <= k < |idx| ==> s[k] == frames[idx[k]]
  {
    if |idx| == 0 then [] else [frames[idx[0]]] + Select(frames, idx[1..])
  }

  /** Picked indices are read indices of the video. */
  lemma {:induction false} PicksInRange(start: nat, n: nat, framestep: int)
    requires framestep != 0
    ensures forall k :: 0 <= k < |Picks(start, n, framestep)| ==> Picks(start, n, framestep)[k] < n
  {
    forall k | 0 <= k < |Picks(start, n, framestep)| ensures Picks(start, n, framestep)[k] < n {
      PicksMembership(start, n, framestep, Picks(start, n, framestep)[k]);
    }
  }

  /** The frames of `frames` the video loop offers from read index `start` on. */
  function Offered(frames: seq<Image>, start: nat, framestep: int): seq<Image>
    requires framestep != 0
  {
    PicksInRange(start, |frames|, framestep);
    Select(frames, Picks(start, |frames|, framestep))
  }
}

=== FILE: outcomes.dfy ===
/** Failure-carrying datatypes shared by the whole model.

    The calibration script reports failure by raising Python exceptions; the
    model returns them as values instead, so that every error path is a
    result a caller can inspect.
 */
module Outcomes {

  /** An optional value: `None` where the script gets a "not found". */
  datatype Option<+T> = None | Some(value: T)

  /** The Python exceptions the modelled code can raise. */
  datatype PyError =
    | IndexError         // `source[-1]` on an empty image list
    | ValueError         // input path neither folder nor file; negative pattern size
    | ZeroDivisionError  // `frame % 0` when the frame step is zero
    | EOFError           // reading past the end of the corners cache

  /** Either a value or the exception that was raised instead. */
  datatype Result<+T> = Ok(value: T) | Err(error: PyError)
}

=== FILE: pattern.dfy ===
/** The canonical object-point grid of the chessboard (calibrate.py, lines
    35-37): one 3-D point per interior corner, on the z = 0 plane, in square
    units, x varying fastest.
 */
module Pattern {
  import opened Outcomes
  import opened PySemantics

  /** A 3-D object point on the calibration board. */
  datatype Point3 = Point3(x: int, y: int, z: int)

  /** The object points of one board view, in detection order. */
  type Grid = seq<Point3>

  /** Board row `y`: its `pw` corners, x ascending. */
  function Row(y: int, pw: nat): seq<Point3>
  {
    seq(pw, x => Point3(x, y, 0))
  }

  /** Rows `y .. ph - 1` of the board laid end to end: the layout that
      transposing `np.indices((pw, ph))` and flattening it produces. */
  function RowsFrom(y: nat, pw: nat, ph: nat): Grid
    requires y <= ph
    decreases ph - y
  {
    if y == ph then [] else Row(y, pw) + RowsFrom(y + 1, pw, ph)
  }

  /** Flat index `k` of the rows from `y` on is corner `(k mod pw, y + k div pw)`. */
  lemma {:induction false} RowsFromShape(y: nat, pw: nat, ph: nat)
    requires y <= ph
    decreases ph - y
    ensures |RowsFrom(y, pw, ph)| == pw * (ph - y)
    ensures forall k :: 0 <= k < |RowsFrom(y, pw, ph)| ==>
      pw > 0 && RowsFrom(y, pw, ph)[k] == Point3(k % pw, y + k / pw, 0)
  {
    if y < ph {
      RowsFromShape(y + 1, pw, ph);
      var rest := RowsFrom(y + 1, pw, ph);
      var g := RowsFrom(y, pw, ph);
      assert g == Row(y, pw) + rest;
      assert pw * (ph - y) == pw + pw * (ph - (y + 1));
      forall k | 0 <= k < |g|
        ensures pw > 0 && g[k] == Point3(k % pw, y + k / pw, 0)
      {
        if k < pw {
          DivModUnique(k, pw, 0, k);
        } else {
          var j := k - pw;
          assert g[k] == rest[j];
          DivModUnique(k, pw, j / pw + 1, j % pw);
        }
      }
    }
  }

  /** An index below `pw * ph` has a row number below `ph`. */
  lemma RowBelowHeight(k: int, pw: int, ph: int)
    requires pw > 0 && 0 <= k < pw * ph
    ensures 0 <= k / pw < ph
  {
  }

  /** The pattern grid for a `pw` x `ph` board (calibrate.py:35-37). A
      negative dimension makes numpy refuse to allocate the array. */
  function PatternPoints(pw: int, ph: int): (r: Result<Grid>)
    ensures r.Err? <==> pw < 0 || ph < 0
    ensures r.Err? ==> r.error == ValueError
    ensures r.Ok? ==> |r.value| == pw * ph
    ensures r.Ok? ==> forall k :: 0 <= k < |r.value| ==>
      pw > 0 && r.value[k] == Point3(k % pw, k / pw, 0)
    ensures r.Ok? ==> forall k :: 0 <= k < |r.value| ==>
      0 <= r.value[k].x < pw && 0 <= r.value[k].y < ph && r.value[k].z == 0
  {
    if pw < 0 || ph < 0 then
      Err(ValueError)
    else
      var g := RowsFrom(0, pw, ph);
      RowsFromShape(0, pw, ph);
      assert forall k :: 0 <= k < |g| ==> 0 <= g[k].y < ph by {
        forall k | 0 <= k < |g| ensures 0 <= g[k].y < ph {
          RowBelowHeight(k, pw, ph);
        }
      }
      Ok(g)
  }

  /** `a * c <= b * c` for `0 <= a <= b` and `c >= 0`. */
  lemma {:induction false} MulMonotone(a: int, b: int, c: int)
    requires 0 <= a <= b && c >= 0
    decreases b - a
    ensures a * c <= b * c
  {
    if a < b {
      MulMonotone(a, b - 1, c);
      assert b * c == (b - 1) * c + c;
    }
  }

  /** The flat index of corner `(x, y)` is inside the grid. */
  lemma FlatIndexInRange(pw: int, ph: int, x: int, y: int)
    requires 0 <= x < pw && 0 <= y < ph
    ensures 0 <= y * pw + x < pw * ph
  {
    MulMonotone(0, y, pw);
    MulMonotone(y + 1, ph, pw);
    assert (y + 1) * pw == y * pw + pw;
  }

  /** Corner `(x, y)` of the board sits at flat index `y * pw + x`. */
  lemma {:induction false} CornerIndex(pw: int, ph: int, x: int, y: int)
    requires PatternPoints(pw, ph).Ok?
    requires 0 <= x < pw && 0 <= y < ph
    ensures 0 <= y * pw + x < pw * ph
    ensures PatternPoints(pw, ph).value[y * pw + x] == Point3(x, y, 0)
  {
    var g := PatternPoints(pw, ph).value;
    var k := y * pw + x;
    FlatIndexInRange(pw, ph, x, y);
    DivModUnique(k, pw, y, x);
    assert k < |g|;
    assert g[k] == Point3(k % pw, k / pw, 0);
  }

  /** The grid holds exactly the board's corners: a point is in it iff it
      lies on z = 0 with 0 <= x < pw and 0 <= y < ph. */
  lemma {:induction false} GridMembership(pw: int, ph: int, p: Point3)
    requires PatternPoints(pw, ph).Ok?
    ensures p in PatternPoints(pw, ph).value <==> 0 <= p.x < pw && 0 <= p.y < ph && p.z == 0
  {
    if 0 <= p.x < pw && 0 <= p.y < ph && p.z == 0 {
      CornerIndex(pw, ph, p.x, p.y);
    }
  }

  /** No corner is listed twice. */
  lemma {:induction false} GridDistinct(pw: int, ph: int, i: int, j: int)
    requires PatternPoints(pw, ph).Ok?
    requires 0 <= i < |PatternPoints(pw, ph).value| && 0 <= j < |PatternPoints(pw, ph).value|
    requires i != j
    ensures PatternPoints(pw, ph).value[i] != PatternPoints(pw, ph).value[j]
  {
  }

  /** The default 6 x 9 board gives 54 corners with x in [0, 5] and y in [0, 8]. */
  lemma DefaultBoard()
    ensures PatternPoints(6, 9).Ok?
    ensures |PatternPoints(6, 9).value| == 54
    ensures forall k :: 0 <= k < 54 ==>
      0 <= PatternPoints(6, 9).value[k].x <= 5 && 0 <= PatternPoints(6, 9).value[k].y <= 8
  {
  }
}

=== FILE: py_semantics.dfy ===
/** The pieces of Python's built-in semantics the calibration code relies on,
    written out because Dafny's own operators differ: list indexing with
    negative indices, the floor-modulo `%`, `int(x / 2)` and slice-bound
    normalisation. Also the small facts about integer division used by the
    other modules.
 */
module PySemantics {
  import opened Outcomes

  /** `s[i]` on a Python list: negative indices count from the end, anything
      else out of range raises IndexError. */
  function PyIndex<T>(s: seq<T>, i: int): (r: Result<T>)
    ensures r.Ok? <==> -|s| <= i < |s|
    ensures r.Err? ==> r.error == IndexError
    ensures r.Ok? ==> r.value == s[i % |s|]
  {
    if 0 <= i < |s| then
      ModOfInRange(i, |s|);
      Ok(s[i])
    else if -|s| <= i < 0 then
      DivModUnique(i, |s|, -1, i + |s|);
      Ok(s[i + |s|])
    else
      Err(IndexError)
  }

  /** Python's `a % b`: the result takes the sign of the divisor (floor
      division), and a zero divisor raises, which callers check first. */
  function FloorMod(a: int, b: int): (r: int)
    requires b != 0
    ensures b > 0 ==> 0 <= r < b
    ensures b < 0 ==> b < r <= 0
    ensures (a - r) % b == 0
    ensures r == 0 <==> a % b == 0
  {
    var m := a % b;
    if b > 0 || m == 0 then
      DivModUnique(a - m, b, a / b, 0);
      m
    else
      DivModUnique(a - (m + b), b, a / b - 1, 0);
      m + b
  }

  /** Python's `int(x / 2)`: true division, then truncation towards zero. */
  function TruncHalf(x: int): (r: int)
    ensures x >= 0 ==> r == x / 2
    ensures x >= 0 ==> 0 <= x - 2 * r <= 1
    ensures x < 0 ==> 0 <= 2 * r - x <= 1
  {
    if x >= 0 then x / 2 else -((-x) / 2)
  }

  /** Bounds `[lo, hi)` of the region a step-1 slice `start:stop` selects on
      an axis of length `n`. */
  datatype Span = Span(lo: int, hi: int) {
    function Len(): int { hi - lo }
  }

  /** One end of a slice, adjusted the way CPython does for step 1: a
      negative bound counts from the end, and the result is clamped into
      `[0, n]`. */
  function AdjustBound(i: int, n: nat): (r: int)
    ensures 0 <= r <= n
    ensures 0 <= i <= n ==> r == i
    ensures i < 0 && 0 <= i + n ==> r == i + n
    ensures i > n ==> r == n
    ensures i + n < 0 ==> r == 0
  {
    if i < 0 then (if i + n < 0 then 0 else i + n)
    else if i > n then n
    else i
  }

  /** The region `a[start:stop]` selects on an axis of length `n`; an empty
      slice (stop before start, both counted from the same end) selects
      nothing. A negative bound is read from the end before the two bounds
      are compared, so `a[0:-1]` is not empty. */
  function PySlice(start: int, stop: int, n: nat): (s: Span)
    ensures 0 <= s.lo <= s.hi <= n
    ensures 0 <= start <= stop <= n ==> s == Span(start, stop)
    ensures 0 <= stop <= start || stop <= start < 0 ==> s.Len() == 0
    ensures 0 <= start + n && start <= stop < 0 ==> s == Span(start + n, stop + n)
    ensures start + n < 0 ==> s.lo == 0
    ensures 0 <= start <= n < stop ==> s == Span(start, n)
    ensures 0 <= start <= n && 0 <= stop + n && stop < 0 ==>
      s == Span(start, if stop + n < start then start else stop + n)
  {
    var lo := AdjustBound(start, n);
    var hi := AdjustBound(stop, n);
    Span(lo, if hi < lo then lo else hi)
  }

  /** Counting from the end selects the same region as counting from the
      front: `a[start - n : stop - n]` is `a[start:stop]` when both bounds
      name an element. A bound of `n` has no mirror, since `n - n` is 0,
      the front of the axis. */
  lemma NegativeSliceMirror(start: int, stop: int, n: nat)
    requires 0 <= start < n && 0 <= stop < n
    ensures PySlice(start - n, stop - n, n) == PySlice(start, stop, n)
  {
    assert AdjustBound(start - n, n) == start;
    assert AdjustBound(stop - n, n) == stop;
  }

  /** The region the bare slice `:` selects: the whole axis. */
  function FullSlice(n: nat): (s: Span)
    ensures s == PySlice(0, n, n)
  {
    Span(0, n)
  }

  /** Euclidean division with remainder is unique: the quotient and
      remainder of `q * b + r` are `q` and `r` whenever `0 <= r < |b|`. */
  lemma DivModUnique(a: int, b: int, q: int, r: int)
    requires b != 0 && 0 <= r < (if b > 0 then b else -b) && a == q * b + r
    ensures a / b == q && a % b == r
  {
    var q', r' := a / b, a % b;
    var d := q - q';
    assert d * b == r' - r;
    var m := if b > 0 then b else -b;
    assert -m < d * b < m;
  }

  /** An index inside `[0, n)` is its own remainder. */
  lemma ModOfInRange(i: int, n: int)
    requires 0 <= i < n
    ensures i % n == i
  {
    DivModUnique(i, n, 0, i);
  }
}
